=== FILE: README.md ===
# Recommendation board — Dafny model

A model of the logic of a small recommendation board. Members browse and submit
"what to read, watch, listen to or follow" items, grouped under four fixed
categories. There are two separate stores. The page keeps its list in local
state, seeded from a fixed list; adds and edits change only that state. A
spreadsheet holds records that only the API route reads. A shared username and
password guard the pages. The model covers:

- the spreadsheet repository `app/lib/sheets.ts`: read, append, update by id (`sheets.dfy`, module `Sheets`);
- the API route `app/api/recommendations/route.ts`: maps sheet records to domain records; POST and PUT are switched off (`route.dfy`, `Route`);
- the domain types and the seed list `app/lib/data.ts` (`data.dfy`, `Data`);
- the page `app/page.tsx`: tab filter, add, edit and the page state (`page.dfy`, `Page`);
- the form `components/add-recommendation-form.tsx`: open/close, draft editing and submit dispatch (`form.dfy`, `Form`);
- how page, form and cards connect, `app/page.tsx` lines 113-130 (`app.dfy`, `App`);
- the access gate `middleware.ts`: credential decision and path matcher (`middleware.dfy`, `Middleware`);
- two helper modules: `Optional` (`optional.dfy`) for absent values, and `Text` (`text.dfy`) for JavaScript's `split`/`join` on one character.

The sheet is a `seq<seq<string>>` as the values API reports it. Row 0 is the header. The API leaves out trailing empty cells, and reports an empty cell inside a row as `""`. The code's `||` defaults treat the two alike, so the model reads both as the empty text (`Sheets.Value`).
Each call to the store that can fail takes a success flag: `readOk`, `appendOk` or `writeOk`. The clock (`new Date().toISOString()`) is a parameter. So are the generated ids (`Date.now()`, `Math.random()`).
Base64 decoding (section 4 of RFC 4648, `atob`) is a function parameter. It returns `None` where `atob` would throw.

A record's category is kept as a `string`. The route casts whatever text the sheet holds to `Category` and never checks it, so the runtime value can be any string. `Data.IsCategory` and `Data.Tag` describe the four real tags.

The code does the following where a reader might expect otherwise:

- GET cannot answer 500 when the store fails. It answers 200 with an empty list.
- POST and PUT always answer 403.
- A missing follow flag reads as the text `"false"`.
- Categories are not validated.
- No shipped page calls the API route. The page's list starts from the seed list and is never written to the sheet.
- A card has no edit control, so nothing ever calls the page's edit-click handler. No item is ever under edit, and every submit that goes through adds a new item (see "## Findings").

## Model

| member | source | states |
|---|---|---|
| Text.Split | middleware.ts:13-14 | `split` on one character always gives at least one piece, and no piece contains the separator |
| Text.JoinSplit | middleware.ts:13-14 | joining the pieces of a split gives back the original text |
| Text.SplitJoin | middleware.ts:13-14 | splitting a join of separator-free pieces gives back the pieces |
| Data.CategoryIsExactlyFourTags | app/lib/data.ts:1 | a string is a category exactly when it is one of read, watch, listen or follow; no two categories share a tag |
| Data.DraftRoundTrip | app/lib/data.ts:3-11 | a recommendation is its id plus six fields; adding an id to a draft and removing it again are inverse operations |
| Data.SeedIds | app/lib/data.ts:13-80 | the seed holds seven entries with ids "1" to "7", in order |
| Data.SeedIdsDistinct | app/lib/data.ts:13-80 | no two seed entries share an id |
| Data.SeedCategorized | app/lib/data.ts:13-80 | every seed entry has one of the four tags |
| Data.SeedGroupedByTab | app/lib/data.ts:13-80 | the seed lists reads first, then watches, then listens |
| Sheets.DecodeRow | app/lib/sheets.ts:40-49 | id, category, recommended_by, title, link and notes equal their cell, or "" when the cell is empty or missing; an empty follow flag becomes "false"; an empty timestamp becomes the read-time clock |
| Sheets.DecodeRows | app/lib/sheets.ts:40-49 | one decoded record per row, in row order |
| Sheets.GetRecommendations | app/lib/sheets.ts:31-54 | one record per sheet row from row 2 on (`DataRows`, the header row at line 35 dropped), in sheet order, decoded positionally; a failed read gives the empty list |
| Sheets.HeaderIgnored | app/lib/sheets.ts:35 | the header row never reaches the result: changing it changes nothing |
| Sheets.EncodeRow | app/lib/sheets.ts:66-75 | the appended row has eight cells: the id, the six fields B to G in order, then the timestamp |
| Sheets.AddRecommendation | app/lib/sheets.ts:56-84 | on success, exactly one row is appended after all rows and the earlier rows are untouched; on failure, false is returned and nothing is written |
| Sheets.AddThenRead | app/lib/sheets.ts:56-84 | after an add, a read returns the earlier records plus one new last record with the generated id and timestamp and the submitted fields; an empty follow flag reads back as "false" |
| Sheets.AddToHeaderlessSheetIsHidden | app/lib/sheets.ts:35 | on a sheet without a header, the appended row becomes row 1, and every read skips it |
| Sheets.FindIndex | app/lib/sheets.ts:94-95 | returns the first row whose column-A cell equals the id, or -1 exactly when no row matches; an empty or missing cell matches nothing (`HasId`, line 95) |
| Sheets.SetFields | app/lib/sheets.ts:105-119 | a row write changes only cells B to G, which take the six fields in order; column A and columns H onward keep their values |
| Sheets.WriteColumnsBG | app/lib/sheets.ts:105-119 | writing range B{n}:G{n} changes row n and no other row; writing just past the last row adds one row |
| Sheets.UpdateRecommendation | app/lib/sheets.ts:86-126 | when the lookup fails, the id is missing or the write fails, the result is false and the sheet is unchanged; otherwise the result is true |
| Sheets.UpdateOverwritesNextRow | app/lib/sheets.ts:91-107 | as written, a successful update leaves the matched row unchanged and writes cells B to G of the row below it; every other row is unchanged, and the sheet grows by one row exactly when the match is the last row |
| Sheets.UpdateAsWrittenCounterexample | app/lib/sheets.ts:91-103 | updating id "1" rewrites the record with id "2"; record "1" is not changed |
| Sheets.UpdateLastRowAddsPhantom | app/lib/sheets.ts:103-107 | updating the last record adds a new record with an empty id and leaves the target unchanged |
| Sheets.UpdateRecommendationFixed | app/lib/sheets.ts:86-126 | the corrected update succeeds exactly when both calls succeed and some data row has the id; it keeps the row count; on failure nothing changes |
| Sheets.UpdateFixedTargetsMatch | app/lib/sheets.ts:102-119 | the corrected update writes B to G of the first data row with the id; the header and every other row stay the same |
| Sheets.UpdateFixedThenRead | app/lib/sheets.ts:102-119 | after an update, a read returns the same number of records; only the matched record changes, taking the new fields and keeping its id and created_at |
| Sheets.UpdateFixedUnknownId | app/lib/sheets.ts:94-100 | an id that matches no data row (by the `row[0] && row[0] === id` test, so a blank id never matches) makes the update return false, with the sheet unchanged |
| Route.ToRecommendation | app/api/recommendations/route.ts:10-17 | id, title, link and notes are copied; recommended_by goes to recommendedBy; the category is copied unchecked; followRegularly is true exactly for the text "true" |
| Route.ToRecommendations | app/api/recommendations/route.ts:10-17 | one domain record per sheet record, with the same length and order |
| Route.Get | app/api/recommendations/route.ts:5-25 | GET always answers 200 with the mapped records, in sheet order |
| Route.GetOnStoreFailure | app/api/recommendations/route.ts:5-24 | a store failure gives 200 with an empty list, never 500 |
| Route.FollowFlagIsExactText | app/api/recommendations/route.ts:17 | "true" turns the follow flag on; "TRUE" and "" leave it off |
| Route.Serve | app/api/recommendations/route.ts:27-33 | POST and PUT answer 403 with an error for every request; only GET answers 200 |
| Route.AddThenGet | app/api/recommendations/route.ts:10-17 | after a sheet append, GET ends with the new record; its follow flag is true exactly when the stored text was "true" |
| Page.Filtered | app/page.tsx:14-16 | every item in a tab's view has that tab's tag |
| Page.FilteredCounts | app/page.tsx:14-16 | the view holds each item of the active category as often as the list does, and no other item |
| Page.FilteredKeepsOrder | app/page.tsx:14-16 | filtering keeps list order: the view of a concatenation is the concatenation of the views |
| Page.TabsPartition | app/page.tsx:63-106 | when every item has a tag, the four tab views together hold exactly the list, with each item in one view |
| Page.UncategorizedIsHidden | app/page.tsx:14-16 | an item whose category is not one of the four tags appears in no tab |
| Page.EmptyNoticeIff | app/page.tsx:117-121 | the "no recommendations" notice shows exactly when no item has the active tab's tag |
| Page.SeedTabs | app/page.tsx:10-16 | on the initial page, the read tab shows the four read seeds, watch shows one, listen shows two, and follow is empty |
| Page.InitialPage | app/page.tsx:10-16 | the page (`Page.Initial`, lines 10-12) starts on the read tab showing the four read seeds, with no item being edited |
| Page.AddRecommendation | app/page.tsx:18-24 | the new item comes first, with the supplied id and the draft's fields; the old items follow in order |
| Page.AddKeepsIdsDistinct | app/page.tsx:18-24 | adding under a fresh id keeps the ids distinct |
| Page.AddShowsFirstOnItsTab | app/page.tsx:18-24 | the new item heads its own tab; the other tabs are unchanged |
| Page.EditRecommendation | app/page.tsx:26-31 | edit keeps the length; items with the target id become the draft under that id; all other items are unchanged |
| Page.EditKeepsIds | app/page.tsx:26-31 | edit keeps every id in its position, so distinct ids stay distinct |
| Page.EditUnknownIdIsNoop | app/page.tsx:26-31 | editing an id that is not in the list leaves the list unchanged |
| Page.EditIsIdempotent | app/page.tsx:26-31 | applying the same edit twice has the same effect as applying it once |
| Page.Step | app/page.tsx:10-39 | a tab click changes the active tab and nothing else; add and edit change the list as above; an edit clears the edited item; a form close clears it and changes nothing else; an edit click (`handleEditClick`, reached only through `App.StepWithEditButton`) sets it and changes nothing else |
| Form.Populate | components/add-recommendation-form.tsx:26-38 | when an edited item arrives, the form opens holding that item's six non-id fields; null leaves the form unchanged |
| Form.Open | components/add-recommendation-form.tsx:65-74 | the "+" button opens the form and keeps the draft |
| Form.Close | components/add-recommendation-form.tsx:52-63 | closing shuts the form, resets the draft to its defaults (`Form.Initial`, lines 15-23: category read, every text empty, follow off) and calls onClose |
| Form.Submit | components/add-recommendation-form.tsx:40-50 | a submit goes through only when the form is open, the name and title are non-empty and any link is a URL (`Submittable`: the `required` name and title at lines 109 and 122, the `type=url` link at line 133); it then calls onEdit with the edited item's id or else onAdd, exactly once, with an id-free draft, and then closes the form |
| Form.Change | components/add-recommendation-form.tsx:94-157 | each input's change handler sets its own field and leaves every other field unchanged |
| Form.FormKeepsCategory | components/add-recommendation-form.tsx:94-100 | the draft's category stays one of the four tags through every form event, as long as the edited item has one |
| App.DeliverEndsClosed | app/page.tsx:125-130 | callbacks ending in onClose leave no item being edited |
| App.Step | app/page.tsx:113-130 | the form's callbacks are handed to the page's handlers in order (`Handler`, `Deliver`). A card click changes nothing, since the card has no edit control (components/recommendation-card.tsx:4-11). While the form is closed, a tab click changes only the active tab and the plus button only opens the form; typing and the close button change nothing. While it is open, typing changes only the draft; the close button clears the edited item and blanks and closes the form, keeping the list and tab; tab clicks and the plus button change nothing, since the dialog covers them. A submit the browser blocks changes nothing. A submit that goes through edits the item under the edited item's id, or else adds the draft first under the fresh id; it keeps the tab and leaves the form closed and blank and nothing under edit |
| App.RunNeverEdits | app/page.tsx:33-35 | as shipped, no sequence of actions puts an item under edit |
| App.SubmitAlwaysAdds | app/page.tsx:113-130 | so in every session from the start, a submit that goes through fires onAdd and adds the draft at the head of the list, never onEdit |
| App.StepWithEditButton | app/page.tsx:33-35 | with the intended edit control, a card click while the form is closed puts that item under edit and opens the form on it; every other action is as shipped |
| App.EditButtonEdits | app/page.tsx:26-35 | with the intended edit control, clicking a card, changing a field and submitting replaces that item under its own id by the changed draft, and leaves the form closed, blank and editing nothing |
| App.InitialInv | app/page.tsx:10-12 | the initial state has tagged, distinct-id items and a tagged draft |
| App.StepKeepsInv | app/page.tsx:18-39 | every user action keeps the items tagged and their ids distinct, given fresh random ids |
| App.EditButtonStepKeepsInv | app/page.tsx:18-39 | with the intended edit control the same holds, given also that a clicked card is one of the listed items |
| App.SubmitKeepsInv | app/page.tsx:18-31 | a submit keeps the invariant |
| App.HandlerKeepsLists | app/page.tsx:18-31 | an add under a fresh id, or an edit, with a tagged draft keeps the list tagged and its ids distinct |
| App.ReachableTabsPartition | app/page.tsx:63-106 | in every state where the invariant holds, the four tabs together hold exactly the list's items, each as often as in the list, and their lengths add up to the list's length |
| Middleware.MatchIffAccepted | middleware.ts:14-19 | the split-at-colons comparison (`CredentialsMatch`) passes the decoded text exactly when it is user, a colon and password, optionally followed by a colon and anything else; neither user nor password may contain a colon |
| Middleware.Decide | middleware.ts:4-30 | development mode always passes; a missing or empty header gets the single 401 challenge; a decode failure happens only when atob throws on the token (`CredentialToken`, line 13: the header's second space-separated word, or the text "undefined"); otherwise a request passes exactly when the decoded text is accepted |
| Middleware.DefaultCredentialsPass | middleware.ts:16-19 | outside development, whenever both variables are unset or empty the `||` defaults apply (`ValidUser`, `ValidPass`, `OrDefault`, lines 16-17) and "members-only:FF2025!" passes |
| Middleware.MissingTokenThrows | middleware.ts:13-15 | a header of one word, with no token, always ends in a decode error rather than the 401 challenge, given that atob rejects base64 of length one more than a multiple of four, as the HTML standard's forgiving-base64 decode does |
| Middleware.ExtraSegmentsIgnored | middleware.ts:14-19 | if "user:pass" passes, "user:pass:anything" passes too |
| Middleware.ColonPasswordNeverMatches | middleware.ts:14-19 | a configured password containing a colon can never be matched |
| Middleware.SchemeWordIgnored | middleware.ts:13 | the first word of the header is never checked: any scheme gets the same decision as "Basic" |
| Middleware.AnyPrefix | middleware.ts:43 | true exactly when one of the patterns starts the text |
| Middleware.GateRuns | middleware.ts:32-44 | the gate runs on a path exactly when it starts with "/" and the rest starts with none of the exempt prefixes |
| Middleware.Handle | middleware.ts:32-44 | unmatched paths pass untouched; matched paths get the middleware's decision |
| Middleware.MatcherExamples | middleware.ts:43 | "/api…" and "/apiary" are exempt, the dot in "favicon.ico" matches any character, and "/" and "/about" are gated |
| Middleware.ApiRequestsPass | middleware.ts:43 | API requests always pass, whatever their headers |

## Left out

- The googleapis client, OAuth2 setup and the environment reads for the store. The sheet is an in-memory grid, and each remote call has a success flag.
- A1 notation in general. Only the fixed ranges the code uses are modelled: `A2:H`, `A:H`, `A:A` and `B{n}:G{n}`.
- `console.error` logging, NextResponse and JSON serialisation. A response is a status code plus a payload datatype.
- Concurrency between requests (last writer wins, no locking), async sequencing and React effect timing. Each operation and each event is atomic.
- The internals of `atob`. It is a parameter, and its exception is the `DecodeError` outcome.
- Rendering: the card's layout in `components/recommendation-card.tsx`, `app/layout.tsx`, tab styling and JSX. The only behaviour taken from the card is that it has no edit control.
- Sheets.GetRecommendations: the sheet is the grid as the API reports it. The API drops trailing rows that are blank in columns A to H; that trimming is not modelled.
- Sheets.DecodeRow: one clock value serves a whole read. The source reads the clock again for each row with an empty timestamp.
- Sheets.AddRecommendation: the row goes after the model's last row. The store's detection of where a table ends is not modelled.
- Form.Submit: `isUrl` stands for the browser's URL syntax check.
- Form.Populate: the effect reruns whenever the edited item changes. As shipped, that happens only when it is cleared to null; the non-null case is reached only through `App.StepWithEditButton`. React skips the effect when the same object is set again; the open dialog covers the cards, so this cannot happen while editing.
- Middleware.GateRuns: path characters are compared exactly. How the framework compiles the matcher (case folding, trailing slashes, data routes) is not modelled.
- Math.random and Date.now cannot be shown to give fresh ids. Freshness is a precondition of `App.StepKeepsInv`, `App.EditButtonStepKeepsInv` and `Page.AddKeepsIdsDistinct`.

## Findings

| source | as written | input that shows it | evidently intended | confidence | as-written member | corrected member |
|---|---|---|---|---|---|---|
| app/lib/sheets.ts:91-103 | The lookup reads range `A:A`, which starts at the header row, yet the target row is `rowIndex + 2`. So the write lands on the row below the matched one. For the last record it adds a new row with an empty id. An id equal to the header text matches the header row. | A sheet with a header and rows for ids "1" and "2"; update id "1" | Write the matched row, as the comment on line 102 says. Keep `+ 2` and look up in `A2:A` | high; not executed | Sheets.UpdateOverwritesNextRow | Sheets.UpdateFixedThenRead |
| app/page.tsx:114 | The page passes `onEdit={handleEditClick}` to each card, but the card's props have only `item` and it renders no edit control (components/recommendation-card.tsx:4-11). Nothing else calls `handleEditClick`, so no item is ever put under edit and the form's edit path is dead. | Open the page and click the first seed's card: nothing happens, and there is no way to edit it | The card shows an edit control that calls `onEdit(item)`, which opens the form on that item so a submit replaces it | high; not executed | App.RunNeverEdits | App.EditButtonEdits |

=== FILE: app.dfy ===
/** The page and its form wired together: each user action runs the form's
    handler and delivers the callbacks it fires to the page's handlers. */
module App {
  import opened Data
  import opened Optional
  import Page
  import Form

  datatype AppState = AppState(page: Page.PageState, form: Form.FormState)

  const Initial := AppState(Page.Initial, Form.Initial)

  /** What a user can do on the page. */
  datatype Action =
    | ClickTab(category: Category)
    | ClickCard(item: Recommendation)
    | ClickPlus
    | Type(edit: Form.FieldEdit)
    | ClickSubmit
    | ClickCloseButton

  /** The page handler behind a form callback: `onAdd` adds under
      `freshId`, `onEdit` edits, `onClose` clears the edited item. */
  function Handler(p: Page.PageState, call: Form.Callback, freshId: string): Page.PageState
  {
    match call
    case OnAdd(d) => Page.Step(p, Page.Added(d, freshId))
    case OnEdit(id, d) => Page.Step(p, Page.Edited(id, d))
    case OnClose => Page.Step(p, Page.FormClosed)
  }

  /** Runs the callbacks in order. */
  function Deliver(p: Page.PageState, calls: seq<Form.Callback>, freshId: string): Page.PageState
    decreases |calls|
  {
    if |calls| == 0 then p else Deliver(Handler(p, calls[0], freshId), calls[1..], freshId)
  }

  /** Callbacks that end with `onClose` leave nothing being edited. */
  lemma {:induction false} DeliverEndsClosed(p: Page.PageState, calls: seq<Form.Callback>, freshId: string)
    ensures |calls| >= 1 && calls[|calls| - 1] == Form.OnClose ==> Deliver(p, calls, freshId).editingItem == None
    decreases |calls|
  {
    if |calls| > 1 {
      DeliverEndsClosed(Handler(p, calls[0], freshId), calls[1..], freshId);
    }
  }

  /** One user action on the page as shipped; `freshId` is the random id an
      add would draw and `isUrl` the browser's URL check. The open form is an
      overlay over the tabs and the cards, the plus button is on screen only
      while the form is closed, and the fields and the close button only while
      it is open. The card has no edit control, so clicking a card does
      nothing. */
  function Step(s: AppState, a: Action, freshId: string, isUrl: string -> bool): (r: AppState)
    ensures a.ClickCard? ==> r == s
    ensures a.ClickTab? && !s.form.isOpen ==> r == s.(page := s.page.(activeCategory := a.category))
    ensures a.ClickPlus? && !s.form.isOpen ==> r == s.(form := s.form.(isOpen := true))
    ensures a.Type? && s.form.isOpen ==> r == s.(form := Form.Change(s.form, a.edit))
    ensures a.ClickCloseButton? && s.form.isOpen ==> r == AppState(s.page.(editingItem := None), Form.Initial)
    ensures s.form.isOpen && (a.ClickTab? || a.ClickPlus?) ==> r == s
    ensures !s.form.isOpen && (a.Type? || a.ClickCloseButton?) ==> r == s
    ensures a.ClickSubmit? && Form.Submit(s.form, s.page.editingItem, isUrl).calls == [] ==> r == s
    ensures a.ClickSubmit? && Form.Submit(s.form, s.page.editingItem, isUrl).calls != [] ==>
              && r.form == Form.Initial
              && r.page.editingItem == None
              && r.page.activeCategory == s.page.activeCategory
              && r.page.recommendations ==
                   if s.page.editingItem.Some?
                   then Page.EditRecommendation(s.page.recommendations, s.page.editingItem.value.id, s.form.formData)
                   else Page.AddRecommendation(s.page.recommendations, s.form.formData, freshId)
  {
    match a
    case ClickTab(c) =>
      if s.form.isOpen then s else s.(page := Page.Step(s.page, Page.SelectTab(c)))
    case ClickCard(_) => s
    case ClickPlus =>
      if s.form.isOpen then s else s.(form := Form.Open(s.form))
    case Type(e) =>
      if s.form.isOpen then s.(form := Form.Change(s.form, e)) else s
    case ClickSubmit =>
      var reaction := Form.Submit(s.form, s.page.editingItem, isUrl);
      // a submit the browser blocks never reaches the handler
      if reaction.calls == [] then s
      else
        var p := Deliver(s.page, reaction.calls, freshId);
        DeliverEndsClosed(s.page, reaction.calls, freshId);
        assert reaction.calls[1..][1..] == [];
        AppState(p, Form.Populate(reaction.next, p.editingItem))
    case ClickCloseButton =>
      if !s.form.isOpen then s
      else
        var reaction := Form.Close(s.form);
        DeliverEndsClosed(s.page, reaction.calls, freshId);
        AppState(Deliver(s.page, reaction.calls, freshId), reaction.next)
  }

  /** One action together with the random id an add during it would draw. */
  datatype Event = Event(action: Action, freshId: string)

  /** The state after a session of events, one `Step` each. */
  function Run(s: AppState, events: seq<Event>, isUrl: string -> bool): AppState
    decreases |events|
  {
    if |events| == 0 then s
    else Run(Step(s, events[0].action, events[0].freshId, isUrl), events[1..], isUrl)
  }

  /** As shipped, no session ever puts an item under edit. */
  lemma {:induction false} RunNeverEdits(s: AppState, events: seq<Event>, isUrl: string -> bool)
    requires s.page.editingItem == None
    ensures Run(s, events, isUrl).page.editingItem == None
    decreases |events|
  {
    if |events| > 0 {
      RunNeverEdits(Step(s, events[0].action, events[0].freshId, isUrl), events[1..], isUrl);
    }
  }

  /** So from the start of any session, a submit that goes through fires
      `onAdd`, never `onEdit`, and adds the draft at the head of the list. */
  lemma SubmitAlwaysAdds(events: seq<Event>, freshId: string, isUrl: string -> bool)
    ensures var s := Run(Initial, events, isUrl);
            var reaction := Form.Submit(s.form, s.page.editingItem, isUrl);
            reaction.calls != [] ==>
              && reaction.calls[0] == Form.OnAdd(s.form.formData)
              && Step(s, ClickSubmit, freshId, isUrl).page.recommendations
                   == Page.AddRecommendation(s.page.recommendations, s.form.formData, freshId)
  {
    RunNeverEdits(Initial, events, isUrl);
  }

  /** The step the page evidently intends, with an edit control on the card
      that calls `onEdit(item)`, that is `handleEditClick`: the clicked item
      becomes the edited item, and that change reruns the form's effect,
      which opens the form on the item. Every other action is as shipped. */
  function StepWithEditButton(s: AppState, a: Action, freshId: string, isUrl: string -> bool): (r: AppState)
    ensures a.ClickCard? && !s.form.isOpen ==>
              r.page == s.page.(editingItem := Some(a.item)) && r.form == Form.Populate(s.form, Some(a.item))
    ensures a.ClickCard? && s.form.isOpen ==> r == s
    ensures !a.ClickCard? ==> r == Step(s, a, freshId, isUrl)
  {
    match a
    case ClickCard(item) =>
      if s.form.isOpen then s
      else
        var p := Page.Step(s.page, Page.EditClicked(item));
        AppState(p, Form.Populate(s.form, p.editingItem))
    case _ => Step(s, a, freshId, isUrl)
  }

  /** With the edit control in place, clicking a card, changing one field
      and submitting replaces that item, under its own id, by the changed
      draft, and leaves the form closed and blank. */
  lemma EditButtonEdits(s: AppState, item: Recommendation, e: Form.FieldEdit, freshId: string, isUrl: string -> bool)
    requires !s.form.isOpen
    requires Form.Submittable(Form.Change(Form.FormState(true, DraftOf(item)), e).formData, isUrl)
    ensures var s1 := StepWithEditButton(s, ClickCard(item), freshId, isUrl);
            var s2 := StepWithEditButton(s1, Type(e), freshId, isUrl);
            var s3 := StepWithEditButton(s2, ClickSubmit, freshId, isUrl);
            && s1.page.editingItem == Some(item)
            && s1.form == Form.FormState(true, DraftOf(item))
            && s3.page.recommendations == Page.EditRecommendation(s.page.recommendations, item.id, s2.form.formData)
            && s3.page.editingItem == None
            && s3.form == Form.Initial
  {
  }

  /** What every reachable state satisfies: listed items carry one of the
      four tags and distinct ids, and so do the edited item and the draft. */
  predicate Inv(s: AppState)
  {
    && AllCategorized(s.page.recommendations)
    && DistinctIds(s.page.recommendations)
    && (s.page.editingItem.Some? ==> IsCategory(s.page.editingItem.value.category))
    && IsCategory(s.form.formData.category)
  }

  lemma InitialInv()
    ensures Inv(Initial)
  {
    SeedIdsDistinct();
    SeedCategorized();
  }

  /** Every action keeps the invariant, given that an added item's random id
      is fresh. */
  lemma StepKeepsInv(s: AppState, a: Action, freshId: string, isUrl: string -> bool)
    requires Inv(s)
    requires freshId !in Ids(s.page.recommendations)
    ensures Inv(Step(s, a, freshId, isUrl))
  {
    if a.ClickSubmit? {
      SubmitKeepsInv(s, freshId, isUrl);
    }
  }

  /** With the edit control in place the invariant still holds, given also
      that a clicked card is one of the listed items. */
  lemma EditButtonStepKeepsInv(s: AppState, a: Action, freshId: string, isUrl: string -> bool)
    requires Inv(s)
    requires a.ClickCard? ==> a.item in s.page.recommendations
    requires freshId !in Ids(s.page.recommendations)
    ensures Inv(StepWithEditButton(s, a, freshId, isUrl))
  {
    match a
    case ClickCard(item) =>
      var items := s.page.recommendations;
      var i :| 0 <= i < |items| && items[i] == item;
    case _ =>
      StepKeepsInv(s, a, freshId, isUrl);
  }

  /** A submit keeps the invariant: the added or edited item takes its
      category from the draft, and the new id is fresh. */
  lemma SubmitKeepsInv(s: AppState, freshId: string, isUrl: string -> bool)
    requires Inv(s)
    requires freshId !in Ids(s.page.recommendations)
    ensures Inv(Step(s, ClickSubmit, freshId, isUrl))
  {
    var reaction := Form.Submit(s.form, s.page.editingItem, isUrl);
    if reaction.calls != [] {
      var call := reaction.calls[0];
      assert reaction.calls[1..] == [Form.OnClose];
      var p1 := Handler(s.page, call, freshId);
      assert Deliver(s.page, reaction.calls, freshId) == Handler(p1, Form.OnClose, freshId);
      HandlerKeepsLists(s.page, call, freshId);
    }
  }

  /** Adding a draft with a tagged category under a fresh id, or editing with
      such a draft, keeps the list tagged and its ids distinct. */
  lemma HandlerKeepsLists(p: Page.PageState, call: Form.Callback, freshId: string)
    requires AllCategorized(p.recommendations) && DistinctIds(p.recommendations)
    requires freshId !in Ids(p.recommendations)
    requires !call.OnClose? ==> IsCategory(call.recommendation.category)
    ensures AllCategorized(Handler(p, call, freshId).recommendations)
    ensures DistinctIds(Handler(p, call, freshId).recommendations)
  {
    var items := p.recommendations;
    match call
    case OnAdd(d) =>
      Page.AddKeepsIdsDistinct(items, d, freshId);
      var r := Page.AddRecommendation(items, d, freshId);
      forall j | 0 <= j < |r|
        ensures IsCategory(r[j].category)
      {
        if j > 0 { assert r[j] == items[j - 1]; }
      }
    case OnEdit(id, d) =>
      Page.EditKeepsIds(items, id, d);
    case OnClose =>
  }

  /** In every state satisfying the invariant the four tabs partition the
      list. */
  lemma ReachableTabsPartition(s: AppState)
    requires Inv(s)
    ensures multiset(s.page.recommendations) ==
              multiset(Page.Filtered(s.page.recommendations, Read)) + multiset(Page.Filtered(s.page.recommendations, Watch))
            + multiset(Page.Filtered(s.page.recommendations, Listen)) + multiset(Page.Filtered(s.page.recommendations, Follow))
    ensures |s.page.recommendations| ==
              |Page.Filtered(s.page.recommendations, Read)| + |Page.Filtered(s.page.recommendations, Watch)|
            + |Page.Filtered(s.page.recommendations, Listen)| + |Page.Filtered(s.page.recommendations, Follow)|
  {
    Page.TabsPartition(s.page.recommendations);
  }
}

=== FILE: data.dfy ===
/** The domain model: the four categories, the `Recommendation` record and the
    seed list the page starts from. */
module Data {

  /** The four fixed tags that partition the board. */
  datatype Category = Read | Watch | Listen | Follow

  /** The string a category is stored and compared as. */
  function Tag(c: Category): string
  {
    match c
    case Read => "read"
    case Watch => "watch"
    case Listen => "listen"
    case Follow => "follow"
  }

  /** Whether a raw string is one of the four tags. */
  predicate IsCategory(s: string)
  {
    s == "read" || s == "watch" || s == "listen" || s == "follow"
  }

  /** The category type admits exactly the four tags, and no two categories
      share a tag. */
  lemma CategoryIsExactlyFourTags(s: string)
    ensures IsCategory(s) <==> exists c :: Tag(c) == s
    ensures forall a, b :: Tag(a) == Tag(b) ==> a == b
  {
    if s == "read" {
      assert Tag(Read) == s;
    } else if s == "watch" {
      assert Tag(Watch) == s;
    } else if s == "listen" {
      assert Tag(Listen) == s;
    } else if s == "follow" {
      assert Tag(Follow) == s;
    }
  }

  /** One recommendation. The category is the runtime value: the type claims a
      `Category`, but values read from the store are cast, not checked. */
  datatype Recommendation = Recommendation(
    id: string,
    category: string,
    recommendedBy: string,
    followRegularly: bool,
    title: string,
    link: string,
    notes: string)

  /** A recommendation without its id (`Omit<Recommendation, 'id'>`): what the
      form edits and what add and edit receive. */
  datatype Draft = Draft(
    category: string,
    recommendedBy: string,
    followRegularly: bool,
    title: string,
    link: string,
    notes: string)

  /** The draft with an id attached. */
  function WithId(d: Draft, id: string): Recommendation
  {
    Recommendation(id, d.category, d.recommendedBy, d.followRegularly, d.title, d.link, d.notes)
  }

  /** The six non-id fields of a recommendation. */
  function DraftOf(r: Recommendation): Draft
  {
    Draft(r.category, r.recommendedBy, r.followRegularly, r.title, r.link, r.notes)
  }

  /** Attaching an id and dropping it again are inverse operations. */
  lemma DraftRoundTrip(d: Draft, id: string, r: Recommendation)
    ensures DraftOf(WithId(d, id)) == d && WithId(d, id).id == id
    ensures WithId(DraftOf(r), r.id) == r
  {
  }

  /** The ids of a list, in list order. */
  function Ids(items: seq<Recommendation>): (ids: seq<string>)
    ensures |ids| == |items|
    ensures forall i :: 0 <= i < |items| ==> ids[i] == items[i].id
  {
    if |items| == 0 then [] else [items[0].id] + Ids(items[1..])
  }

  /** No two entries of the list share an id. */
  predicate DistinctIds(items: seq<Recommendation>)
  {
    forall i, j :: 0 <= i < j < |items| ==> items[i].id != items[j].id
  }

  /** Every entry carries one of the four tags. */
  predicate AllCategorized(items: seq<Recommendation>)
  {
    forall i :: 0 <= i < |items| ==> IsCategory(items[i].category)
  }

  /** Position of a category in the tab bar; anything else sorts last. */
  function TabPosition(category: string): nat
  {
    if category == "read" then 0
    else if category == "watch" then 1
    else if category == "listen" then 2
    else if category == "follow" then 3
    else 4
  }

  /** The seed list the page starts from. */
  const InitialRecommendations: seq<Recommendation> := [
    Recommendation("1", "read", "Adam Davidson", false,
      "Vibe Coding: Building Production-Grade Software With GenAI, Chat, Agents, and Beyond",
      "#", "Call outs to many folks across the expert network"),
    Recommendation("2", "read", "Jessica Johnston", false,
      "AI Myths series - by Adam Davidson",
      "#", "At the request of several members, Adam created a series of Fact Checks on common fears/myths/viral news stories about AI."),
    Recommendation("3", "read", "Jessica Johnston", false,
      "2025 AI Adoption Report",
      "#", "A good counter to the MIT \"study\" - (note the quotes, and refernce the Myths series above!), with real evidence on the impact of GenAI investments"),
    Recommendation("4", "read", "Jessica Johnston", true,
      "One Useful Thing",
      "#", "Obvi!"),
    Recommendation("5", "watch", "Jessica Johnston", false,
      "How to be Fearless in the Age of AI - Fei Fei Li in conversation w. Reid Hoffman",
      "#", "I really enjoyed this conversation. I am so interested in both her story (read her book, too!) and what she's building with Marble (World Labs)."),
    Recommendation("6", "listen", "Jessica Johnston", true,
      "Feedforward Podcast",
      "https://Feedforward.fm", "Great conversations from across the year"),
    Recommendation("7", "listen", "Jessica Johnston", true,
      "AI Daily Brief",
      "#", "A favorite among members and experts")
  ]

  /** The seed has seven entries whose ids are "1" to "7", in order. */
  lemma SeedIds()
    ensures Ids(InitialRecommendations) == ["1", "2", "3", "4", "5", "6", "7"]
  {
    var ids := Ids(InitialRecommendations);
    assert |ids| == 7 && ids[0] == "1" && ids[6] == "7";
  }

  /** The seed ids are pairwise distinct. */
  lemma SeedIdsDistinct()
    ensures DistinctIds(InitialRecommendations)
  {
    var seed := InitialRecommendations;
    assert seed[0].id == "1" && seed[1].id == "2" && seed[2].id == "3" && seed[3].id == "4";
    assert seed[4].id == "5" && seed[5].id == "6" && seed[6].id == "7";
  }

  /** Every seed entry carries one of the four tags. */
  lemma SeedCategorized()
    ensures AllCategorized(InitialRecommendations)
  {
  }

  /** Seed entries are grouped in tab order: reads, then watches, then listens. */
  lemma SeedGroupedByTab()
    ensures forall i, j :: 0 <= i <= j < |InitialRecommendations| ==>
      TabPosition(InitialRecommendations[i].category) <= TabPosition(InitialRecommendations[j].category)
  {
  }
}

=== FILE: form.dfy ===
/** The add/edit form: whether the dialog is open, the draft being typed, and
    the callbacks it fires on the page. */
module Form {
  import opened Data
  import opened Optional

  datatype FormState = FormState(isOpen: bool, formData: Draft)

  /** The blank draft: category read, empty text, follow flag off. */
  const EmptyDraft := Draft("read", "", false, "", "", "")

  /** The form starts closed with the blank draft. */
  const Initial := FormState(false, EmptyDraft)

  /** The callbacks the form calls on its owner. */
  datatype Callback = OnAdd(recommendation: Draft) | OnEdit(id: string, recommendation: Draft) | OnClose

  /** The form's state after an event, and the callbacks fired, in order. */
  datatype Reaction = Reaction(next: FormState, calls: seq<Callback>)

  /** The effect run when `editingItem` changes: a non-null item opens the
      form with that item's six non-id fields; null leaves the form alone. */
  function Populate(s: FormState, editingItem: Option<Recommendation>): (r: FormState)
    ensures editingItem.Some? ==> r.isOpen && WithId(r.formData, editingItem.value.id) == editingItem.value
    ensures editingItem.None? ==> r == s
  {
    match editingItem
    case Some(item) => FormState(true, DraftOf(item))
    case None => s
  }

  /** The floating "+" button, shown only while the form is closed. */
  function Open(s: FormState): (r: FormState)
    ensures r.isOpen && r.formData == s.formData
  {
    if s.isOpen then s else s.(isOpen := true)
  }

  /** `handleClose`: closed, blank again, and the owner told. */
  function Close(s: FormState): (r: Reaction)
    ensures !r.next.isOpen && r.next.formData == EmptyDraft
    ensures r.calls == [OnClose]
  {
    Reaction(Initial, [OnClose])
  }

  /** Whether the browser lets the form submit: the two `required` text
      fields are non-empty and a non-empty link is a URL (`isUrl` stands for
      the browser's URL check). */
  predicate Submittable(d: Draft, isUrl: string -> bool)
  {
    d.recommendedBy != "" && d.title != "" && (d.link == "" || isUrl(d.link))
  }

  /** `handleSubmit`. A closed form has no submit button and an invalid one is
      stopped by the browser: nothing happens. Otherwise exactly one of
      `onEdit` (when an item is being edited, with that item's id) or `onAdd`
      is called with the draft, which never carries an id, and then the form
      closes as in `handleClose`. */
  function Submit(s: FormState, editingItem: Option<Recommendation>, isUrl: string -> bool): (r: Reaction)
    ensures r.calls == [] <==> !(s.isOpen && Submittable(s.formData, isUrl))
    ensures r.calls == [] ==> r.next == s
    ensures r.calls != [] ==> |r.calls| == 2 && r.calls[1] == OnClose && r.next == Initial
    ensures r.calls != [] ==> s.formData.recommendedBy != "" && s.formData.title != ""
    ensures r.calls != [] && editingItem.Some? ==> r.calls[0] == OnEdit(editingItem.value.id, s.formData)
    ensures r.calls != [] && editingItem.None? ==> r.calls[0] == OnAdd(s.formData)
  {
    if !s.isOpen || !Submittable(s.formData, isUrl) then Reaction(s, [])
    else
      var call := match editingItem
        case Some(item) => OnEdit(item.id, s.formData)
        case None => OnAdd(s.formData);
      var closed := Close(s);
      Reaction(closed.next, [call] + closed.calls)
  }

  /** The six inputs' change events. */
  datatype FieldEdit =
    | SetCategory(category: Category)
    | SetRecommendedBy(recommendedBy: string)
    | SetTitle(title: string)
    | SetLink(link: string)
    | SetNotes(notes: string)
    | SetFollowRegularly(followRegularly: bool)

  /** The fields of a draft, by name. */
  datatype Field = CategoryField | RecommendedByField | TitleField | LinkField | NotesField | FollowField

  /** The field an edit targets. */
  function Target(e: FieldEdit): Field
  {
    match e
    case SetCategory(_) => CategoryField
    case SetRecommendedBy(_) => RecommendedByField
    case SetTitle(_) => TitleField
    case SetLink(_) => LinkField
    case SetNotes(_) => NotesField
    case SetFollowRegularly(_) => FollowField
  }

  /** Two drafts agree on one field. */
  predicate Agree(a: Draft, b: Draft, f: Field)
  {
    match f
    case CategoryField => a.category == b.category
    case RecommendedByField => a.recommendedBy == b.recommendedBy
    case TitleField => a.title == b.title
    case LinkField => a.link == b.link
    case NotesField => a.notes == b.notes
    case FollowField => a.followRegularly == b.followRegularly
  }

  /** The draft holds the value an edit sets. */
  predicate Holds(d: Draft, e: FieldEdit)
  {
    match e
    case SetCategory(c) => d.category == Tag(c)
    case SetRecommendedBy(v) => d.recommendedBy == v
    case SetTitle(v) => d.title == v
    case SetLink(v) => d.link == v
    case SetNotes(v) => d.notes == v
    case SetFollowRegularly(b) => d.followRegularly == b
  }

  /** An input's change handler: the targeted field takes the new value and every other field keeps its old one. The category
      select only offers the four tags. */
  function Change(s: FormState, e: FieldEdit): (r: FormState)
    ensures r.isOpen == s.isOpen
    ensures Holds(r.formData, e)
    ensures forall f :: f != Target(e) ==> Agree(r.formData, s.formData, f)
  {
    var d := s.formData;
    var d' := match e
      case SetCategory(c) => d.(category := Tag(c))
      case SetRecommendedBy(v) => d.(recommendedBy := v)
      case SetTitle(v) => d.(title := v)
      case SetLink(v) => d.(link := v)
      case SetNotes(v) => d.(notes := v)
      case SetFollowRegularly(b) => d.(followRegularly := b);
    s.(formData := d')
  }

  /** The draft's category stays one of the four tags through every form
      event, provided the item being edited has one. */
  lemma FormKeepsCategory(s: FormState, editingItem: Option<Recommendation>, e: FieldEdit, isUrl: string -> bool)
    requires IsCategory(s.formData.category)
    requires editingItem.Some? ==> IsCategory(editingItem.value.category)
    ensures IsCategory(Populate(s, editingItem).formData.category)
    ensures IsCategory(Open(s).formData.category)
    ensures IsCategory(Change(s, e).formData.category)
    ensures IsCategory(Close(s).next.formData.category)
    ensures IsCategory(Submit(s, editingItem, isUrl).next.formData.category)
  {
  }
}

=== FILE: middleware.dfy ===
/** The access gate run before page requests: a development bypass, a shared
    username and password carried in the `Authorization` header, and the
    path matcher that decides where the gate runs at all. Base64 decoding
    (section 4 of RFC 4648) is a parameter: `atob` yields `None` where the
    browser function throws. */
module Middleware {
  import opened Optional
  import opened Text

  /** The environment the gate reads. An unset variable is `None`. */
  datatype Env = Env(nodeEnv: string, basicAuthUser: Option<string>, basicAuthPassword: Option<string>)

  /** The parts of a request the gate looks at; `None` is an absent header. */
  datatype Request = Request(pathname: string, authorization: Option<string>)

  /** A response reduced to status, challenge header and body text. */
  datatype HttpResponse = HttpResponse(status: nat, wwwAuthenticate: string, body: string)

  /** The one response the gate ever produces itself. */
  const Challenge := HttpResponse(401, "Basic realm=\"Secure Area\"", "Authentication required")

  /** Pass the request on, answer it, or fail with the exception `atob`
      throws on text that is not base64. */
  datatype Outcome = Next | Respond(response: HttpResponse) | DecodeError

  const DefaultUser := "members-only"
  const DefaultPassword := "FF2025!"

  /** A configured value; unset and empty both fall back. */
  function OrDefault(v: Option<string>, fallback: string): string
  {
    if v.Some? && v.value != "" then v.value else fallback
  }

  function ValidUser(env: Env): string
  {
    OrDefault(env.basicAuthUser, DefaultUser)
  }

  function ValidPass(env: Env): string
  {
    OrDefault(env.basicAuthPassword, DefaultPassword)
  }

  /** The second word of the header split at single spaces, whatever the
      first word says. Without a second word the value is `undefined`,
      which `atob` reads as the text "undefined": nine letters, a length
      no base64 text can have, so decoding it always fails (see
      `MissingTokenThrows`). */
  function CredentialToken(header: string): string
  {
    var words := Split(header, ' ');
    if |words| >= 2 then words[1] else "undefined"
  }

  /** The decoded text, split at every colon, has the configured user as its
      first piece and the configured password as its second. */
  predicate CredentialsMatch(text: string, env: Env)
  {
    var parts := Split(text, ':');
    |parts| >= 2 && parts[0] == ValidUser(env) && parts[1] == ValidPass(env)
  }

  /** The decoded texts the gate accepts, stated without splitting: the
      configured user, a colon, the configured password, and then either
      nothing or a colon followed by anything. Neither half may contain a
      colon. */
  predicate AcceptedText(text: string, env: Env)
  {
    var u, p := ValidUser(env), ValidPass(env);
    && ':' !in u && ':' !in p
    && (text == u + ":" + p || u + ":" + p + ":" <= text)
  }

  /** The split-based comparison accepts exactly the texts described above. */
  lemma MatchIffAccepted(text: string, env: Env)
    ensures CredentialsMatch(text, env) <==> AcceptedText(text, env)
  {
    var u, p := ValidUser(env), ValidPass(env);
    var parts := Split(text, ':');
    if CredentialsMatch(text, env) {
      JoinSplit(text, ':');
      assert parts[0] == u && parts[1] == p;
      if |parts| == 2 {
        assert Join(parts[1..], ':') == p;
        assert text == u + ":" + p;
      } else {
        var tail := Join(parts[2..], ':');
        assert parts[1..][1..] == parts[2..];
        assert Join(parts[1..], ':') == p + ":" + tail;
        assert text == u + ":" + p + ":" + tail;
      }
    }
    if AcceptedText(text, env) {
      if text == u + ":" + p {
        SplitAtFirstSeparator(u, ':', p);
        SplitWithoutSeparator(p, ':');
        assert parts == [u, p];
      } else {
        var rest := text[|u| + |p| + 2..];
        assert text == u + [':'] + (p + [':'] + rest);
        SplitAtFirstSeparator(u, ':', p + [':'] + rest);
        SplitAtFirstSeparator(p, ':', rest);
        assert parts == [u, p] + Split(rest, ':');
      }
    }
  }

  /** `middleware(req)`. */
  function Decide(env: Env, req: Request, atob: string -> Option<string>): (r: Outcome)
    ensures env.nodeEnv == "development" ==> r == Next
    ensures r.Respond? ==> r.response == Challenge
    ensures env.nodeEnv != "development" && (req.authorization == None || req.authorization == Some("")) ==>
              r == Respond(Challenge)
    ensures r == DecodeError <==>
              && env.nodeEnv != "development"
              && req.authorization.Some? && req.authorization.value != ""
              && atob(CredentialToken(req.authorization.value)).None?
    ensures env.nodeEnv != "development" && req.authorization.Some? && req.authorization.value != ""
            && atob(CredentialToken(req.authorization.value)).Some? ==>
              (r == Next <==> AcceptedText(atob(CredentialToken(req.authorization.value)).value, env))
  {
    if env.nodeEnv == "development" then Next
    else if req.authorization.None? || req.authorization.value == "" then Respond(Challenge)
    else
      match atob(CredentialToken(req.authorization.value))
      case None => DecodeError
      case Some(text) =>
        MatchIffAccepted(text, env);
        if CredentialsMatch(text, env) then Next else Respond(Challenge)
  }

  /** With the defaults in force, "members-only:FF2025!" gets through. */
  lemma DefaultCredentialsPass(env: Env, req: Request, atob: string -> Option<string>)
    requires env.nodeEnv != "development"
    requires env.basicAuthUser == None || env.basicAuthUser == Some("")
    requires env.basicAuthPassword == None || env.basicAuthPassword == Some("")
    requires req.authorization.Some? && req.authorization.value != ""
    requires atob(CredentialToken(req.authorization.value)) == Some("members-only:FF2025!")
    ensures Decide(env, req, atob) == Next
  {
    assert ValidUser(env) == "members-only" && ValidPass(env) == "FF2025!";
    assert ':' !in "members-only" && ':' !in "FF2025!";
    assert "members-only:FF2025!" == "members-only" + ":" + "FF2025!";
    assert AcceptedText("members-only:FF2025!", env);
  }

  /** Anything after a second colon is ignored: if "user:pass" passes, so
      does "user:pass:anything". */
  lemma ExtraSegmentsIgnored(env: Env, user: string, pass: string, rest: string)
    requires CredentialsMatch(user + ":" + pass, env)
    ensures CredentialsMatch(user + ":" + pass + ":" + rest, env)
  {
    MatchIffAccepted(user + ":" + pass, env);
    MatchIffAccepted(user + ":" + pass + ":" + rest, env);
  }

  /** A configured password that contains a colon can never be matched. */
  lemma ColonPasswordNeverMatches(env: Env, text: string)
    requires ':' in ValidPass(env)
    ensures !CredentialsMatch(text, env)
  {
    var parts := Split(text, ':');
    if |parts| >= 2 {
      assert ':' !in parts[1];
    }
  }

  /** The scheme word is never checked, unlike section 2 of RFC 7617: any
      first word leads to the same decision as "Basic". */
  lemma SchemeWordIgnored(env: Env, req: Request, atob: string -> Option<string>, scheme: string, rest: string)
    requires ' ' !in scheme
    ensures Decide(env, req.(authorization := Some(scheme + " " + rest)), atob)
            == Decide(env, req.(authorization := Some("Basic " + rest)), atob)
  {
    SplitAtFirstSeparator(scheme, ' ', rest);
    SplitAtFirstSeparator("Basic", ' ', rest);
    assert scheme + " " + rest == scheme + [' '] + rest;
    assert "Basic " + rest == "Basic" + [' '] + rest;
    assert CredentialToken(scheme + " " + rest) == CredentialToken("Basic " + rest);
  }

  /** The alternatives of the matcher's negative lookahead. */
  const ExemptPrefixes: seq<string> := ["api", "_next/static", "_next/image", "favicon.ico", "logo.png", "logo-full.png"]

  /** ASCII whitespace as the forgiving-base64 decode of the HTML standard
      strips it: tab, line feed, form feed, carriage return and space. */
  predicate NoAsciiWhitespace(t: string)
  {
    forall i :: 0 <= i < |t| ==> t[i] !in {'\t', '\n', '\U{000C}', '\r', ' '}
  }

  /** What the standard's forgiving-base64 decode promises about `atob`: a
      text without whitespace whose length is one more than a multiple of
      four is rejected. */
  ghost predicate RejectsLengthOneModFour(atob: string -> Option<string>)
  {
    forall t {:trigger atob(t)} :: NoAsciiWhitespace(t) && |t| % 4 == 1 ==> atob(t).None?
  }

  /** A header of one word has no token; the gate decodes "undefined"
      instead, which `atob` rejects, so the request ends in a decode error
      rather than the 401 challenge. */
  lemma MissingTokenThrows(env: Env, req: Request, atob: string -> Option<string>)
    requires env.nodeEnv != "development"
    requires req.authorization.Some? && req.authorization.value != ""
    requires ' ' !in req.authorization.value
    requires RejectsLengthOneModFour(atob)
    ensures Decide(env, req, atob) == DecodeError
  {
    SplitWithoutSeparator(req.authorization.value, ' ');
    assert CredentialToken(req.authorization.value) == "undefined";
    assert NoAsciiWhitespace("undefined") && |"undefined"| % 4 == 1;
    assert atob("undefined").None?;
  }

  /** `s` starts with `pattern` read as a regular expression: `.` stands for
      any one character. */
  predicate PatternPrefix(pattern: string, s: string)
  {
    |pattern| <= |s| && forall i :: 0 <= i < |pattern| ==> pattern[i] == '.' || pattern[i] == s[i]
  }

  /** Whether one of `patterns` starts `s`. */
  function AnyPrefix(patterns: seq<string>, s: string): (r: bool)
    ensures r <==> exists i :: 0 <= i < |patterns| && PatternPrefix(patterns[i], s)
  {
    if |patterns| == 0 then false
    else PatternPrefix(patterns[0], s) || AnyPrefix(patterns[1..], s)
  }

  /** `config.matcher`: the gate runs on a path starting with "/" whose rest
      does not start with any exempt prefix. */
  function GateRuns(path: string): (r: bool)
    ensures r <==> && |path| >= 1 && path[0] == '/'
                   && forall i :: 0 <= i < |ExemptPrefixes| ==> !PatternPrefix(ExemptPrefixes[i], path[1..])
  {
    |path| >= 1 && path[0] == '/' && !AnyPrefix(ExemptPrefixes, path[1..])
  }

  /** Matched paths go through `middleware`; the rest pass untouched. */
  function Handle(env: Env, req: Request, atob: string -> Option<string>): (r: Outcome)
    ensures !GateRuns(req.pathname) ==> r == Next
    ensures GateRuns(req.pathname) ==> r == Decide(env, req, atob)
  {
    if GateRuns(req.pathname) then Decide(env, req, atob) else Next
  }

  /** The test is on prefixes, so every path starting "/api" is exempt,
      "/apiary" included; the dot in "favicon.ico" matches any character;
      the root page is gated. */
  lemma MatcherExamples(rest: string)
    ensures !GateRuns("/api" + rest)
    ensures !GateRuns("/apiary")
    ensures !GateRuns("/faviconXico")
    ensures GateRuns("/")
    ensures GateRuns("/about")
  {
    assert PatternPrefix(ExemptPrefixes[0], ("/api" + rest)[1..]);
    assert PatternPrefix(ExemptPrefixes[0], "/apiary"[1..]);
    assert PatternPrefix(ExemptPrefixes[3], "/faviconXico"[1..]);
    var about := "/about"[1..];
    assert ExemptPrefixes[0][1] != about[1];
    assert ExemptPrefixes[1][0] != about[0] && ExemptPrefixes[2][0] != about[0];
    assert ExemptPrefixes[3][0] != about[0] && ExemptPrefixes[4][0] != about[0];
    assert |ExemptPrefixes[5]| > |about|;
  }

  /** API requests are never challenged, whatever their headers. */
  lemma ApiRequestsPass(env: Env, rest: string, authorization: Option<string>, atob: string -> Option<string>)
    ensures Handle(env, Request("/api" + rest, authorization), atob) == Next
  {
    MatcherExamples(rest);
  }
}

=== FILE: optional.dfy ===
/** Optional values: the model's stand-in for TypeScript's `T | null` and
    `T | undefined`. */
module Optional {

  datatype Option<+T> = None | Some(value: T)
}

=== FILE: page.dfy ===
/** The board page: the active tab, the locally held list and the item being
    edited, with the handlers that change them. */
module Page {
  import opened Data
  import opened Optional

  datatype PageState = PageState(
    activeCategory: Category,
    recommendations: seq<Recommendation>,
    editingItem: Option<Recommendation>)

  /** The page starts on the read tab with the seed list and nothing being
      edited. */
  const Initial := PageState(Read, InitialRecommendations, None)

  /** The items whose category is the active tab's tag, in list order. */
  function Filtered(items: seq<Recommendation>, active: Category): (r: seq<Recommendation>)
    ensures forall i :: 0 <= i < |r| ==> r[i].category == Tag(active)
  {
    if |items| == 0 then []
    else if items[0].category == Tag(active) then [items[0]] + Filtered(items[1..], active)
    else Filtered(items[1..], active)
  }

  /** The view holds every item of the active tab as often as the list does,
      and nothing else. */
  lemma {:induction false} FilteredCounts(items: seq<Recommendation>, active: Category)
    ensures forall x :: multiset(Filtered(items, active))[x]
                        == (if x.category == Tag(active) then multiset(items)[x] else 0)
    decreases |items|
  {
    if |items| > 0 {
      FilteredCounts(items[1..], active);
      assert items == [items[0]] + items[1..];
    }
  }

  /** Filtering keeps list order: it distributes over concatenation. */
  lemma {:induction false} FilteredKeepsOrder(a: seq<Recommendation>, b: seq<Recommendation>, active: Category)
    ensures Filtered(a + b, active) == Filtered(a, active) + Filtered(b, active)
    decreases |a|
  {
    if |a| > 0 {
      assert (a + b)[1..] == a[1..] + b;
      FilteredKeepsOrder(a[1..], b, active);
    } else {
      assert a + b == b;
    }
  }

  /** When every item has one of the four tags, the four tab views partition
      the list: each item lands in exactly one of them. */
  lemma TabsPartition(items: seq<Recommendation>)
    requires AllCategorized(items)
    ensures multiset(items) == multiset(Filtered(items, Read)) + multiset(Filtered(items, Watch))
                             + multiset(Filtered(items, Listen)) + multiset(Filtered(items, Follow))
    ensures |items| == |Filtered(items, Read)| + |Filtered(items, Watch)|
                     + |Filtered(items, Listen)| + |Filtered(items, Follow)|
  {
    FilteredCounts(items, Read);
    FilteredCounts(items, Watch);
    FilteredCounts(items, Listen);
    FilteredCounts(items, Follow);
    var sum := multiset(Filtered(items, Read)) + multiset(Filtered(items, Watch))
             + multiset(Filtered(items, Listen)) + multiset(Filtered(items, Follow));
    forall x
      ensures multiset(items)[x] == sum[x]
    {
      if x in items {
        var i :| 0 <= i < |items| && items[i] == x;
        assert IsCategory(items[i].category);
      }
    }
    assert multiset(items) == sum;
  }

  /** An item whose category is none of the four tags shows on no tab. */
  lemma UncategorizedIsHidden(items: seq<Recommendation>, x: Recommendation, active: Category)
    requires !IsCategory(x.category)
    ensures x !in Filtered(items, active)
  {
    FilteredCounts(items, active);
    assert multiset(Filtered(items, active))[x] == 0;
  }

  /** The empty-category notice shows exactly when no item carries the
      active tab's tag. */
  predicate ShowsEmptyNotice(s: PageState)
  {
    |Filtered(s.recommendations, s.activeCategory)| == 0
  }

  lemma EmptyNoticeIff(s: PageState)
    ensures ShowsEmptyNotice(s) <==>
            forall i :: 0 <= i < |s.recommendations| ==> s.recommendations[i].category != Tag(s.activeCategory)
  {
    var items := s.recommendations;
    var r := Filtered(items, s.activeCategory);
    FilteredCounts(items, s.activeCategory);
    if |r| == 0 {
      forall i | 0 <= i < |items|
        ensures items[i].category != Tag(s.activeCategory)
      {
        assert multiset(r)[items[i]] == 0;
      }
    } else {
      assert r[0] in multiset(r);
      assert r[0] in items;
    }
  }

  /** On the initial page the read tab shows the first four seed entries,
      the watch tab the fifth, the listen tab the last two, and the follow
      tab nothing. */
  lemma SeedTabs()
    ensures Filtered(InitialRecommendations, Read) == InitialRecommendations[..4]
    ensures Filtered(InitialRecommendations, Watch) == InitialRecommendations[4..5]
    ensures Filtered(InitialRecommendations, Listen) == InitialRecommendations[5..]
    ensures Filtered(InitialRecommendations, Follow) == []
  {
    SeedReadTab();
    SeedWatchTab();
    SeedListenTab();
    SeedFollowTab();
  }

  lemma SeedReadTab()
    ensures Filtered(InitialRecommendations, Read) == InitialRecommendations[..4]
  {
  }

  lemma SeedWatchTab()
    ensures Filtered(InitialRecommendations, Watch) == InitialRecommendations[4..5]
  {
  }

  lemma SeedListenTab()
    ensures Filtered(InitialRecommendations, Listen) == InitialRecommendations[5..]
  {
  }

  lemma SeedFollowTab()
    ensures Filtered(InitialRecommendations, Follow) == []
  {
  }

  /** The initial page shows the four read seeds and edits nothing. */
  lemma InitialPage()
    ensures Filtered(Initial.recommendations, Initial.activeCategory) == InitialRecommendations[..4]
    ensures Initial.editingItem == None
  {
    SeedReadTab();
  }

  /** `handleAddRecommendation`: the new item, with the supplied id, goes
      first; the rest keep their order. */
  function AddRecommendation(items: seq<Recommendation>, d: Draft, id: string): (r: seq<Recommendation>)
    ensures |r| == |items| + 1
    ensures r[0].id == id && DraftOf(r[0]) == d
    ensures r[1..] == items
  {
    [WithId(d, id)] + items
  }

  /** A fresh id keeps the ids distinct. */
  lemma AddKeepsIdsDistinct(items: seq<Recommendation>, d: Draft, id: string)
    requires DistinctIds(items)
    requires id !in Ids(items)
    ensures DistinctIds(AddRecommendation(items, d, id))
  {
    var r := AddRecommendation(items, d, id);
    forall i, j | 0 <= i < j < |r|
      ensures r[i].id != r[j].id
    {
      if i == 0 {
        assert r[j] == items[j - 1];
        assert Ids(items)[j - 1] == items[j - 1].id;
      } else {
        assert r[i] == items[i - 1] && r[j] == items[j - 1];
      }
    }
  }

  /** The new item heads its own tab; the other tabs are unchanged. */
  lemma AddShowsFirstOnItsTab(items: seq<Recommendation>, d: Draft, id: string, active: Category)
    ensures d.category == Tag(active) ==>
            Filtered(AddRecommendation(items, d, id), active) == [WithId(d, id)] + Filtered(items, active)
    ensures d.category != Tag(active) ==>
            Filtered(AddRecommendation(items, d, id), active) == Filtered(items, active)
  {
    FilteredKeepsOrder([WithId(d, id)], items, active);
  }

  /** `handleEditRecommendation`'s list update: every item with the target
      id becomes the draft under that id; the others stay. */
  function EditRecommendation(items: seq<Recommendation>, id: string, d: Draft): (r: seq<Recommendation>)
    ensures |r| == |items|
    ensures forall i :: 0 <= i < |items| && items[i].id != id ==> r[i] == items[i]
    ensures forall i :: 0 <= i < |items| && items[i].id == id ==> r[i] == WithId(d, id)
  {
    if |items| == 0 then []
    else [if items[0].id == id then WithId(d, id) else items[0]] + EditRecommendation(items[1..], id, d)
  }

  /** Editing keeps every id in its place, so the set of ids and their order
      survive, and distinct ids stay distinct. */
  lemma EditKeepsIds(items: seq<Recommendation>, id: string, d: Draft)
    ensures Ids(EditRecommendation(items, id, d)) == Ids(items)
    ensures DistinctIds(items) ==> DistinctIds(EditRecommendation(items, id, d))
  {
    var r := EditRecommendation(items, id, d);
    assert forall i :: 0 <= i < |items| ==> r[i].id == items[i].id;
    assert Ids(r) == Ids(items);
  }

  /** An id that is not in the list leaves the list as it was. */
  lemma EditUnknownIdIsNoop(items: seq<Recommendation>, id: string, d: Draft)
    requires id !in Ids(items)
    ensures EditRecommendation(items, id, d) == items
  {
    var r := EditRecommendation(items, id, d);
    forall i | 0 <= i < |items|
      ensures r[i] == items[i]
    {
      assert Ids(items)[i] == items[i].id;
    }
  }

  /** Applying the same edit twice is the same as applying it once. */
  lemma EditIsIdempotent(items: seq<Recommendation>, id: string, d: Draft)
    ensures EditRecommendation(EditRecommendation(items, id, d), id, d) == EditRecommendation(items, id, d)
  {
  }

  /** The page's events. */
  datatype PageEvent =
    | SelectTab(category: Category)
    | Added(draft: Draft, freshId: string)
    | Edited(id: string, draft: Draft)
    | EditClicked(item: Recommendation)
    | FormClosed

  /** One event. `freshId` in `Added` stands for the random id the page draws. */
  function Step(s: PageState, e: PageEvent): (r: PageState)
    ensures e.SelectTab? ==> r.recommendations == s.recommendations && r.activeCategory == e.category
    ensures e.Added? ==> r.recommendations == AddRecommendation(s.recommendations, e.draft, e.freshId)
    ensures e.Edited? ==> r.recommendations == EditRecommendation(s.recommendations, e.id, e.draft)
    ensures e.Edited? || e.FormClosed? ==> r.editingItem == None
    ensures e.EditClicked? ==> r.editingItem == Some(e.item) && r.recommendations == s.recommendations
    ensures !e.SelectTab? ==> r.activeCategory == s.activeCategory
    ensures e.Added? ==> r.editingItem == s.editingItem
    ensures e.SelectTab? ==> r == s.(activeCategory := e.category)
    ensures e.FormClosed? ==> r == s.(editingItem := None)
    ensures e.EditClicked? ==> r == s.(editingItem := Some(e.item))
  {
    match e
    case SelectTab(c) => s.(activeCategory := c)
    case Added(d, freshId) => s.(recommendations := AddRecommendation(s.recommendations, d, freshId))
    case Edited(id, d) => s.(recommendations := EditRecommendation(s.recommendations, id, d), editingItem := None)
    case EditClicked(item) => s.(editingItem := Some(item))
    case FormClosed => s.(editingItem := None)
  }
}

=== FILE: route.dfy ===
/** The `/api/recommendations` route: GET maps sheet records to domain
    records; POST and PUT are switched off and answer 403. */
module Route {
  import opened Data
  import Sheets

  /** The JSON body of a response. */
  datatype Payload = Recommendations(recommendations: seq<Recommendation>) | Error(error: string)

  /** A response reduced to its status code and body. */
  datatype Response = Response(status: nat, payload: Payload)

  /** The per-row mapping inside GET: fields are copied, `recommended_by`
      becomes `recommendedBy`, the category is cast without a check, and only
      the exact text "true" turns on the follow flag. */
  function ToRecommendation(row: Sheets.SheetRecommendation): (r: Recommendation)
    ensures r.id == row.id && r.title == row.title && r.link == row.link && r.notes == row.notes
    ensures r.recommendedBy == row.recommended_by
    ensures r.category == row.category
    ensures r.followRegularly <==> row.follow_regularly == "true"
  {
    Recommendation(row.id, row.category, row.recommended_by, row.follow_regularly == "true",
                   row.title, row.link, row.notes)
  }

  /** `sheetData.map(...)`: one domain record per sheet record, same order. */
  function ToRecommendations(rows: seq<Sheets.SheetRecommendation>): (r: seq<Recommendation>)
    ensures |r| == |rows|
    ensures forall i :: 0 <= i < |rows| ==> r[i] == ToRecommendation(rows[i])
  {
    if |rows| == 0 then [] else [ToRecommendation(rows[0])] + ToRecommendations(rows[1..])
  }

  /** GET. The repository read never fails, so neither does GET: the status
      is always 200 and the 500 branch cannot be reached from the store. */
  function Get(sheet: Sheets.Sheet, readOk: bool, now: string): (r: Response)
    ensures r.status == 200 && r.payload.Recommendations?
    ensures var records := Sheets.GetRecommendations(sheet, readOk, now);
            && |r.payload.recommendations| == |records|
            && forall i :: 0 <= i < |records| ==> r.payload.recommendations[i] == ToRecommendation(records[i])
  {
    Response(200, Recommendations(ToRecommendations(Sheets.GetRecommendations(sheet, readOk, now))))
  }

  /** A store failure shows up as an empty list with status 200. */
  lemma GetOnStoreFailure(sheet: Sheets.Sheet, now: string)
    ensures Get(sheet, false, now) == Response(200, Recommendations([]))
  {
  }

  /** The follow flag is case-sensitive: "TRUE" and "" both read as false. */
  lemma FollowFlagIsExactText(row: Sheets.SheetRecommendation)
    ensures row.follow_regularly == "TRUE" ==> !ToRecommendation(row).followRegularly
    ensures row.follow_regularly == "" ==> !ToRecommendation(row).followRegularly
    ensures row.follow_regularly == "true" ==> ToRecommendation(row).followRegularly
  {
  }

  /** The methods the route answers. */
  datatype Method = GET | POST | PUT

  /** The route as a whole. Request bodies are never read and no handler has
      a write path to the store; only GET succeeds, the others answer 403. */
  function Serve(m: Method, sheet: Sheets.Sheet, readOk: bool, now: string): (r: Response)
    ensures r.status == 200 <==> m == GET
    ensures m != GET ==> r.status == 403 && r.payload.Error?
  {
    match m
    case GET => Get(sheet, readOk, now)
    case POST => Response(403, Error("Submissions are currently disabled."))
    case PUT => Response(403, Error("Updates are currently disabled."))
  }

  /** Read after add through the API: the last record GET returns is the new
      one, with the generated id, the submitted fields, and a follow flag that
      is on exactly when the stored text was "true". */
  lemma AddThenGet(sheet: Sheets.Sheet, s: Sheets.Submission, id: string, createdAt: string, now: string)
    requires |sheet| >= 1
    ensures var before := Get(sheet, true, now).payload.recommendations;
            var after := Get(Sheets.AddRecommendation(sheet, s, id, createdAt, true).sheet, true, now).payload.recommendations;
            && |after| == |before| + 1
            && after[..|before|] == before
            && after[|before|] == Recommendation(id, s.category, s.recommended_by,
                                                 s.follow_regularly == "true",
                                                 s.title, s.link, s.notes)
  {
    Sheets.AddThenRead(sheet, s, id, createdAt, now);
    var before := Get(sheet, true, now).payload.recommendations;
    var after := Get(Sheets.AddRecommendation(sheet, s, id, createdAt, true).sheet, true, now).payload.recommendations;
    assert |after| == |before| + 1;
    forall i | 0 <= i < |before|
      ensures after[i] == before[i]
    {
    }
  }
}

=== FILE: sheets.dfy ===
/** The spreadsheet-backed repository. The remote sheet is an in-memory grid
    of rows (row 0 is the header); each call to the remote store that can fail
    takes an explicit success flag, and the clock and the id generator are
    parameters. */
module Sheets {

  /** One sheet row, cell by cell from column A. */
  type Row = seq<string>

  /** The whole sheet as the values API reports it; row 0 is the header. */
  type Sheet = seq<Row>

  /** A record as read from the sheet; every field is text. */
  datatype SheetRecommendation = SheetRecommendation(
    id: string,
    category: string,
    recommended_by: string,
    title: string,
    link: string,
    notes: string,
    follow_regularly: string,
    created_at: string)

  /** The writable fields: a record without `id` and `created_at`. */
  datatype Submission = Submission(
    category: string,
    recommended_by: string,
    title: string,
    link: string,
    notes: string,
    follow_regularly: string)

  /** Outcome of a write: the success flag returned to the caller and the
      sheet afterwards. */
  datatype Write = Write(ok: bool, sheet: Sheet)

  /** The text of a cell; a cell past the end of the row is empty (the API
      omits trailing empty cells, so empty and missing are the same). */
  function Value(row: Row, col: nat): string
  {
    if col < |row| then row[col] else ""
  }

  /** A cell's text, or `fallback` when the cell is empty or missing. */
  function CellOr(row: Row, col: nat, fallback: string): string
  {
    if Value(row, col) != "" then Value(row, col) else fallback
  }

  /** Positional decoding of one data row; `now` is the read-time clock. */
  function DecodeRow(row: Row, now: string): (r: SheetRecommendation)
    ensures r.id == Value(row, 0) && r.category == Value(row, 1)
    ensures r.recommended_by == Value(row, 2) && r.title == Value(row, 3)
    ensures r.link == Value(row, 4) && r.notes == Value(row, 5)
    ensures Value(row, 6) == "" ==> r.follow_regularly == "false"
    ensures Value(row, 6) != "" ==> r.follow_regularly == Value(row, 6)
    ensures Value(row, 7) == "" ==> r.created_at == now
    ensures Value(row, 7) != "" ==> r.created_at == Value(row, 7)
  {
    SheetRecommendation(
      CellOr(row, 0, ""),
      CellOr(row, 1, ""),
      CellOr(row, 2, ""),
      CellOr(row, 3, ""),
      CellOr(row, 4, ""),
      CellOr(row, 5, ""),
      CellOr(row, 6, "false"),
      CellOr(row, 7, now))
  }

  /** Decodes every row, keeping the order. */
  function DecodeRows(rows: seq<Row>, now: string): (r: seq<SheetRecommendation>)
    ensures |r| == |rows|
    ensures forall i :: 0 <= i < |rows| ==> r[i] == DecodeRow(rows[i], now)
  {
    if |rows| == 0 then [] else [DecodeRow(rows[0], now)] + DecodeRows(rows[1..], now)
  }

  /** The rows below the header: what range `A2:H` returns. */
  function DataRows(sheet: Sheet): seq<Row>
  {
    if |sheet| == 0 then [] else sheet[1..]
  }

  /** `getRecommendations`: every data row from sheet row 2 on, in sheet
      order, decoded; a failed read yields the empty list instead of an error. */
  function GetRecommendations(sheet: Sheet, readOk: bool, now: string): (r: seq<SheetRecommendation>)
    ensures !readOk ==> r == []
    ensures readOk ==> |r| == (if |sheet| == 0 then 0 else |sheet| - 1)
    ensures readOk ==> forall i :: 0 <= i < |r| ==> r[i] == DecodeRow(sheet[i + 1], now)
  {
    if readOk then DecodeRows(DataRows(sheet), now) else []
  }

  /** The header row is never part of the result: only the data rows matter. */
  lemma HeaderIgnored(sheet: Sheet, header: Row, readOk: bool, now: string)
    requires |sheet| >= 1
    ensures GetRecommendations(sheet[0 := header], readOk, now) == GetRecommendations(sheet, readOk, now)
  {
    assert DataRows(sheet[0 := header]) == DataRows(sheet);
  }

  /** The cells B to G in column order. */
  function FieldCells(s: Submission): Row
  {
    [s.category, s.recommended_by, s.title, s.link, s.notes, s.follow_regularly]
  }

  /** The eight cells `addRecommendation` appends, columns A to H. */
  function EncodeRow(id: string, s: Submission, createdAt: string): (row: Row)
    ensures |row| == 8 && row[0] == id && row[7] == createdAt
    ensures row[1..7] == FieldCells(s)
  {
    [id] + FieldCells(s) + [createdAt]
  }

  /** `addRecommendation` with generated `id` and `createdAt`; `appendOk` is
      whether the append call succeeds. */
  function AddRecommendation(sheet: Sheet, s: Submission, id: string, createdAt: string, appendOk: bool): (r: Write)
    ensures !appendOk ==> r == Write(false, sheet)
    ensures appendOk ==> r.ok && |r.sheet| == |sheet| + 1
    ensures appendOk ==> r.sheet[..|sheet|] == sheet && r.sheet[|sheet|] == EncodeRow(id, s, createdAt)
  {
    if appendOk then Write(true, sheet + [EncodeRow(id, s, createdAt)]) else Write(false, sheet)
  }

  /** Read after add: the list grows by exactly the new record at the end,
      carrying the generated id and timestamp and the submitted fields; an
      empty follow flag reads back as "false" and an empty timestamp as the
      read-time clock. */
  lemma AddThenRead(sheet: Sheet, s: Submission, id: string, createdAt: string, now: string)
    requires |sheet| >= 1
    ensures var before := GetRecommendations(sheet, true, now);
            var after := GetRecommendations(AddRecommendation(sheet, s, id, createdAt, true).sheet, true, now);
            && |after| == |before| + 1
            && after[..|before|] == before
            && after[|before|] == SheetRecommendation(
                 id, s.category, s.recommended_by, s.title, s.link, s.notes,
                 if s.follow_regularly == "" then "false" else s.follow_regularly,
                 if createdAt == "" then now else createdAt)
  {
    var sheet' := AddRecommendation(sheet, s, id, createdAt, true).sheet;
    var before := GetRecommendations(sheet, true, now);
    var after := GetRecommendations(sheet', true, now);
    assert |after| == |before| + 1;
    forall i | 0 <= i < |before|
      ensures after[i] == before[i]
    {
      assert sheet'[i + 1] == sheet[i + 1];
    }
    var row := sheet'[|sheet|];
    assert Value(row, 6) == s.follow_regularly && Value(row, 7) == createdAt;
  }

  /** On a sheet with no header row the appended row becomes row 1, which
      every later read skips as the header. */
  lemma AddToHeaderlessSheetIsHidden(s: Submission, id: string, createdAt: string, now: string)
    ensures AddRecommendation([], s, id, createdAt, true).ok
    ensures GetRecommendations(AddRecommendation([], s, id, createdAt, true).sheet, true, now) == []
  {
  }

  /** What `row[0] === id` sees for a row of range `A:A`: the API omits an
      empty cell, so an empty cell never matches, not even the empty id. */
  predicate HasId(row: Row, id: string)
  {
    Value(row, 0) != "" && Value(row, 0) == id
  }

  /** `findIndex`: the first position whose column-A cell equals `id`, or -1. */
  function FindIndex(rows: seq<Row>, id: string): (k: int)
    ensures -1 <= k < |rows|
    ensures k == -1 <==> forall i :: 0 <= i < |rows| ==> !HasId(rows[i], id)
    ensures k >= 0 ==> HasId(rows[k], id)
    ensures k >= 0 ==> forall i :: 0 <= i < k ==> !HasId(rows[i], id)
  {
    if |rows| == 0 then -1
    else if HasId(rows[0], id) then 0
    else
      var k := FindIndex(rows[1..], id);
      if k == -1 then -1 else k + 1
  }

  /** A row after its cells B to G are overwritten with `s`. */
  function SetFields(row: Row, s: Submission): (r: Row)
    ensures |r| >= 7
    ensures Value(r, 0) == Value(row, 0)
    ensures forall col :: 1 <= col <= 6 ==> Value(r, col) == FieldCells(s)[col - 1]
    ensures forall col :: 7 <= col ==> Value(r, col) == Value(row, col)
  {
    [Value(row, 0)] + FieldCells(s) + (if |row| > 7 then row[7..] else [])
  }

  /** Writing range `B{sheetRow}:G{sheetRow}` (1-based row number). A row
      just past the last one is blank in the real sheet, so writing there
      adds a row whose other cells are empty. */
  function WriteColumnsBG(sheet: Sheet, sheetRow: nat, s: Submission): (r: Sheet)
    requires 1 <= sheetRow <= |sheet| + 1
    ensures |r| == (if sheetRow <= |sheet| then |sheet| else |sheet| + 1)
    ensures forall i :: 0 <= i < |sheet| && i != sheetRow - 1 ==> r[i] == sheet[i]
    ensures r[sheetRow - 1] == SetFields(if sheetRow <= |sheet| then sheet[sheetRow - 1] else [], s)
  {
    if sheetRow <= |sheet| then sheet[sheetRow - 1 := SetFields(sheet[sheetRow - 1], s)]
    else sheet + [SetFields([], s)]
  }

  /** `updateRecommendation` exactly as written: it looks `id` up in range
      `A:A`, which starts at the header row, and then writes sheet row
      `rowIndex + 2`. `readOk` and `writeOk` say whether the lookup call and
      the update call succeed. */
  function UpdateRecommendation(sheet: Sheet, id: string, s: Submission, readOk: bool, writeOk: bool): (r: Write)
    ensures !r.ok ==> r.sheet == sheet
    ensures r.ok <==> readOk && writeOk && FindIndex(sheet, id) >= 0
  {
    if !readOk then Write(false, sheet)
    else
      var rowIndex := FindIndex(sheet, id);
      if rowIndex == -1 then Write(false, sheet)
      else
        var sheetRow := rowIndex + 2;
        if writeOk then Write(true, WriteColumnsBG(sheet, sheetRow, s)) else Write(false, sheet)
  }

  /** As written, a successful update never touches the row whose id matched:
      it overwrites cells B to G of the row below it instead, or adds a new
      row when the match is the last row. */
  lemma UpdateOverwritesNextRow(sheet: Sheet, id: string, s: Submission)
    requires FindIndex(sheet, id) >= 0
    ensures var k := FindIndex(sheet, id);
            var r := UpdateRecommendation(sheet, id, s, true, true);
            && r.ok
            && r.sheet[k] == sheet[k]
            && r.sheet[k + 1] == SetFields(if k + 1 < |sheet| then sheet[k + 1] else [], s)
            && |r.sheet| == (if k + 1 < |sheet| then |sheet| else |sheet| + 1)
            && forall i :: 0 <= i < |sheet| && i != k + 1 ==> r.sheet[i] == sheet[i]
  {
  }

  /** A concrete case: updating the record with id "1" rewrites the record
      with id "2" and leaves record "1" as it was. */
  lemma UpdateAsWrittenCounterexample()
    ensures var sheet := [
              ["id", "category", "recommended_by", "title", "link", "notes", "follow_regularly", "created_at"],
              ["1", "read", "Ann", "Book A", "", "", "false", "t1"],
              ["2", "watch", "Bob", "Film B", "", "", "false", "t2"]];
            var after := UpdateRecommendation(sheet, "1", Submission("read", "Ann", "Book A2", "", "", "false"), true, true);
            var list := GetRecommendations(after.sheet, true, "t0");
            && after.ok
            && list[0].id == "1" && list[0].title == "Book A"
            && list[1].id == "2" && list[1].title == "Book A2"
  {
    var sheet := [
      ["id", "category", "recommended_by", "title", "link", "notes", "follow_regularly", "created_at"],
      ["1", "read", "Ann", "Book A", "", "", "false", "t1"],
      ["2", "watch", "Bob", "Film B", "", "", "false", "t2"]];
    assert HasId(sheet[1], "1") && !HasId(sheet[0], "1");
    assert FindIndex(sheet, "1") == 1;
  }

  /** A concrete case: updating the last record leaves it unchanged and makes
      a further record with an empty id appear. */
  lemma UpdateLastRowAddsPhantom()
    ensures var sheet := [
              ["id", "category", "recommended_by", "title", "link", "notes", "follow_regularly", "created_at"],
              ["1", "read", "Ann", "Book A", "", "", "false", "t1"]];
            var after := UpdateRecommendation(sheet, "1", Submission("read", "Ann", "Book A2", "", "", "false"), true, true);
            var list := GetRecommendations(after.sheet, true, "t0");
            && after.ok
            && |list| == 2
            && list[0].id == "1" && list[0].title == "Book A"
            && list[1].id == "" && list[1].title == "Book A2" && list[1].created_at == "t0"
  {
    var sheet := [
      ["id", "category", "recommended_by", "title", "link", "notes", "follow_regularly", "created_at"],
      ["1", "read", "Ann", "Book A", "", "", "false", "t1"]];
    assert HasId(sheet[1], "1") && !HasId(sheet[0], "1");
    assert FindIndex(sheet, "1") == 1;
  }

  /** The evidently intended update: look `id` up among the data rows only
      (range `A2:A`), so that sheet row `rowIndex + 2` is the matched row. */
  function UpdateRecommendationFixed(sheet: Sheet, id: string, s: Submission, readOk: bool, writeOk: bool): (r: Write)
    ensures !r.ok ==> r.sheet == sheet
    ensures r.ok <==> readOk && writeOk && FindIndex(DataRows(sheet), id) >= 0
    ensures r.ok ==> |r.sheet| == |sheet|
  {
    if !readOk then Write(false, sheet)
    else
      var rowIndex := FindIndex(DataRows(sheet), id);
      if rowIndex == -1 then Write(false, sheet)
      else
        var sheetRow := rowIndex + 2;
        if writeOk then Write(true, WriteColumnsBG(sheet, sheetRow, s)) else Write(false, sheet)
  }

  /** The intended contract of an update: the first data row whose id matches
      gets cells B to G from `s`; its id and timestamp, the header and every
      other row stay as they were. */
  lemma UpdateFixedTargetsMatch(sheet: Sheet, id: string, s: Submission)
    requires FindIndex(DataRows(sheet), id) >= 0
    ensures var k := FindIndex(DataRows(sheet), id) + 1;
            var r := UpdateRecommendationFixed(sheet, id, s, true, true);
            && r.ok
            && 1 <= k < |sheet| && HasId(sheet[k], id)
            && (forall i :: 1 <= i < k ==> !HasId(sheet[i], id))
            && r.sheet[k] == SetFields(sheet[k], s)
            && (forall i :: 0 <= i < |sheet| && i != k ==> r.sheet[i] == sheet[i])
  {
    var k := FindIndex(DataRows(sheet), id) + 1;
    forall i | 1 <= i < k
      ensures !HasId(sheet[i], id)
    {
      assert sheet[i] == DataRows(sheet)[i - 1];
    }
  }

  /** Read after update: the list keeps its length and every record but the
      one at the matched position; that record keeps its id and timestamp and
      carries the new fields, an empty follow flag reading back as "false". */
  lemma UpdateFixedThenRead(sheet: Sheet, id: string, s: Submission, now: string)
    requires FindIndex(DataRows(sheet), id) >= 0
    ensures var k := FindIndex(DataRows(sheet), id);
            var before := GetRecommendations(sheet, true, now);
            var after := GetRecommendations(UpdateRecommendationFixed(sheet, id, s, true, true).sheet, true, now);
            && |after| == |before|
            && (forall i :: 0 <= i < |before| && i != k ==> after[i] == before[i])
            && after[k] == SheetRecommendation(
                 id, s.category, s.recommended_by, s.title, s.link, s.notes,
                 if s.follow_regularly == "" then "false" else s.follow_regularly,
                 before[k].created_at)
  {
    UpdateFixedTargetsMatch(sheet, id, s);
    var k := FindIndex(DataRows(sheet), id);
    var sheet' := UpdateRecommendationFixed(sheet, id, s, true, true).sheet;
    var row' := sheet'[k + 1];
    assert Value(row', 0) == id;
    assert Value(row', 6) == s.follow_regularly && Value(row', 7) == Value(sheet[k + 1], 7);
  }

  /** An update whose id is on no data row fails and changes nothing. */
  lemma UpdateFixedUnknownId(sheet: Sheet, id: string, s: Submission, readOk: bool, writeOk: bool)
    requires forall i :: 1 <= i < |sheet| ==> !HasId(sheet[i], id)
    ensures UpdateRecommendationFixed(sheet, id, s, readOk, writeOk) == Write(false, sheet)
  {
    if |sheet| > 0 {
      forall i | 0 <= i < |DataRows(sheet)|
        ensures !HasId(DataRows(sheet)[i], id)
      {
        assert DataRows(sheet)[i] == sheet[i + 1];
      }
    }
  }
}

=== FILE: text.dfy ===
/** String helpers mirroring JavaScript's `String.prototype.split` with a
    one-character separator and `Array.prototype.join`, its inverse. */
module Text {

  /** `parts.join(sep)`: the pieces in order, with `sep` between neighbours. */
  function Join(parts: seq<string>, sep: char): string
    decreases |parts|
  {
    if |parts| == 0 then ""
    else if |parts| == 1 then parts[0]
    else parts[0] + [sep] + Join(parts[1..], sep)
  }

  /** `s.split(sep)`: the maximal separator-free pieces of `s`, in order,
      empty pieces included; the empty string splits into one empty piece. */
  function Split(s: string, sep: char): (parts: seq<string>)
    ensures |parts| >= 1
    ensures forall i :: 0 <= i < |parts| ==> sep !in parts[i]
    decreases |s|
  {
    if |s| == 0 then [""]
    else
      var rest := Split(s[1..], sep);
      if s[0] == sep then [""] + rest
      else [[s[0]] + rest[0]] + rest[1..]
  }

  /** Splitting loses nothing: joining the pieces restores the input. */
  lemma {:induction false} JoinSplit(s: string, sep: char)
    ensures Join(Split(s, sep), sep) == s
    decreases |s|
  {
    if |s| > 0 {
      var rest := Split(s[1..], sep);
      JoinSplit(s[1..], sep);
      var parts := Split(s, sep);
      if s[0] == sep {
        assert parts[1..] == rest;
        assert s == [sep] + s[1..];
      } else if |rest| == 1 {
        assert s == [s[0]] + s[1..];
      } else {
        assert parts[1..] == rest[1..];
        assert Join(rest, sep) == rest[0] + [sep] + Join(rest[1..], sep);
        assert s == [s[0]] + s[1..];
      }
    }
  }

  /** A separator-free string is a single piece. */
  lemma {:induction false} SplitWithoutSeparator(a: string, sep: char)
    requires sep !in a
    ensures Split(a, sep) == [a]
    decreases |a|
  {
    if |a| > 0 {
      SplitWithoutSeparator(a[1..], sep);
      assert a == [a[0]] + a[1..];
    }
  }

  /** The first separator ends the first piece; the rest is split on its own. */
  lemma {:induction false} SplitAtFirstSeparator(a: string, sep: char, b: string)
    requires sep !in a
    ensures Split(a + [sep] + b, sep) == [a] + Split(b, sep)
    decreases |a|
  {
    var s := a + [sep] + b;
    if |a| == 0 {
      assert s[1..] == b;
    } else {
      assert s[1..] == a[1..] + [sep] + b;
      SplitAtFirstSeparator(a[1..], sep, b);
      assert a == [a[0]] + a[1..];
    }
  }

  /** Joining separator-free pieces and splitting again gives the pieces back. */
  lemma {:induction false} SplitJoin(parts: seq<string>, sep: char)
    requires |parts| >= 1
    requires forall i :: 0 <= i < |parts| ==> sep !in parts[i]
    ensures Split(Join(parts, sep), sep) == parts
    decreases |parts|
  {
    if |parts| == 1 {
      SplitWithoutSeparator(parts[0], sep);
    } else {
      SplitJoin(parts[1..], sep);
      SplitAtFirstSeparator(parts[0], sep, Join(parts[1..], sep));
      assert parts == [parts[0]] + parts[1..];
    }
  }
}
